=== FILE: README.md ===
# use-listen, modelled in Dafny

`use-listen` is a React hook. `useListen(keys, getter)` fetches data once when the component mounts. It then refetches every time the subscription receives an announcement from `notify(...keys)`; an announcement made while no waiter of the subscription is registered does not reach it. This project models the event logic of `src/index.tsx` with immutable datatypes and total transition functions. Every promise continuation becomes an explicit event, and the events may arrive in any order.

- `Registry` (`registry.dfy`) models the process-wide `accepts` list of one-shot waiters. `Subscribe` appends a waiter. `Notify` resolves every current waiter with the same key list and empties the list; with no keys it does nothing. A waiter's resolution is kept in `delivered`, and a promise settles only once.
- `Overlap` (`overlap.dfy`) models `intersects`, which is `a.filter(v => b.includes(v))`. It also models the JavaScript truthiness of the array that filter returns.
- `AbortSignal` (`abort.dfy`) reduces `AbortController` to an aborted flag and a count of fired abort events. It also models the guarded cleanup of `useAbortSignal`.
- `Listen` (`listen.dfy`) is one subscription. Its state holds the two `useState` cells (`data`, `error`), the generator's `done` flag and the two abort controllers. It records where the refresh loop is suspended: waiting on a race that holds a waiter, fetching, or stopped. It also counts refresh getter calls. The events are: the initial getter settles, the race settles, a refresh getter settles, unmount. `Observe` models the render: `if (error) throw error; return data`.
- `ListenFacts` (`listen_facts.dfy`) holds the safety properties over whole event sequences.
- `World` (`world.dfy`) puts one registry together with any number of subscriptions. It proves the invariant that links them: a waiting subscription's waiter is never lost, and no two subscriptions share one. A change of `keys` or `deps` is the `Resubscribe` event.
- `Scenario` (`scenario.dfy`) replays the run of `src/index.test.tsx` step by step.

### Where the code departs from its own comments

- **The guard always passes.** `intersects` returns an array, not a boolean. In JavaScript every array is truthy, the empty one included, so the guard `if (intersects(...))` at line 109 always passes. Every announcement a mounted subscription receives therefore starts a refetch, even one that shares no key with it. `AnnouncementAlwaysRefetches` and `DogsAnnouncementRefetches` state this. The comments at lines 11 and 107-108 say the refetch should happen only when a tracked key appears.
- **Success does not clear the error.** `setData` never clears `error`. Once a truthy error has been stored, a later successful refresh does not stop the component from throwing (`RefreshDoesNotClearError`). It keeps throwing until a non-abort rejection with a falsy value arrives (`ThrowPersists`). Such a rejection runs `setError(undefined)`, and the render shows data again (`FalsyRejectionStopsThrow`). So `data` and `error` are not mutually exclusive.
- **A failed refresh does not end the loop.** A refresh failure that is not an abort is stored, and the loop keeps listening, because no `return` follows `setError` (`OtherRefreshFailureKeepsListening`). An abort-kind failure does end the loop (`AbortRejectionEndsListening`).
- **Falsy errors are not thrown.** An error value that JavaScript treats as false (`undefined`, `""`, `0`) is stored but not thrown. `Observe` therefore takes the truthiness of error values as a parameter.
- **A late initial result wins.** The initial call (lines 52-68) and the refresh loop (lines 105-128) run independently, and neither waits for the other. If the initial call settles after a refresh call that started later, its older result is committed last and replaces the newer data (`StaleInitialOverwrites`).
- **Announcements are not queued.** `notify` resolves only the waiters registered at that moment (lines 147-150). While a subscription's refresh call is in flight, or before its loop has registered its next waiter, it has no waiter in `accepts`, so an announcement made then never reaches it and no later refresh makes up for it. A second `notify("cats")` during the refresh caused by the first one is lost (`AnnouncementDuringRefreshIsLost`).
- **Unmount leaves the waiter registered.** The unmounted subscription's waiter stays in `accepts` until the next `notify`. The race ends through `unsubscribed` instead.

## Model

| member | source | states |
|---|---|---|
| Registry.EmptyIsValid | src/index.tsx:3 | the empty `accepts` list satisfies the registry invariant |
| Registry.Subscribe | src/index.tsx:5-9 | appends exactly one waiter at the end, with existing waiters and their order unchanged; the new waiter is distinct from every registered and every resolved one; validity is kept |
| Registry.Notify | src/index.tsx:145-152 | with zero keys the registry is unchanged; otherwise every waiter registered before the call receives the identical key list, the list is emptied, earlier resolutions are untouched, and only registered waiters gain a value |
| Registry.DeliveryIsFinal | src/index.tsx:145-152 | a resolved waiter keeps its value under any later subscribes and notifies (no double delivery) |
| Registry.RunPreservesValid | src/index.tsx:3-9 | any sequence of subscribes and notifies keeps the registry invariant, including "every resolved waiter holds a non-empty key list" |
| Registry.OnlyLaterAnnouncementsReach | src/index.tsx:145-152 | an unresolved waiter can only ever be resolved with keys announced after that point |
| Registry.LateWaiterMissesAnnouncement | src/index.tsx:145-152 | a waiter registered after `notify(keys)` has returned is unresolved and can only see later announcements |
| Overlap.Intersects | src/index.tsx:11-14 | the result is no longer than `a`; every element is in both `a` and `b`; every element of `a` that is in `b` is in the result |
| Overlap.IntersectsIsSubsequence | src/index.tsx:12-14 | the result keeps `a`'s order: it is a subsequence of `a` |
| Overlap.IntersectsCounts | src/index.tsx:12-14 | duplicates are kept: an element of `b` occurs as often as in `a`, and any other element does not occur |
| Overlap.GuardIgnoresOverlap | src/index.tsx:109 | the guard holds for every pair of arrays, including when the overlap is empty |
| AbortSignal.Abort | src/index.tsx:131 | `abort()` leaves the signal aborted, fires one event the first time, and ignores later calls |
| AbortSignal.Cleanup | src/index.tsx:25-29 | the guarded cleanup leaves the signal aborted and fires at most one event |
| AbortSignal.CleanupIdempotent | src/index.tsx:26-28 | running the cleanup twice equals running it once |
| AbortSignal.RepeatedCleanupFiresOnce | src/index.tsx:26-28 | however many times the cleanup runs on a fresh controller, exactly one abort event fires |
| Listen.Mount | src/index.tsx:47-92 | after mount, data and error are undefined, the initial call is pending, nothing is aborted, and the generator's first waiter is appended to the registry |
| Listen.Resubscribe | src/index.tsx:47-92 | on a mounted subscription, a change of `keys` or `deps` keeps `data` and `error`, starts a new pending initial call with fresh unaborted signals, and appends one never-issued waiter to the registry |
| Listen.LoopTop | src/index.tsx:86-92 | only the loop position changes. At the loop head `done` ends the generator and leaves the registry alone. Otherwise one waiter that was never issued, and is neither registered nor resolved, joins the end of the registry; validity is kept |
| Listen.InitSettle | src/index.tsx:52-68 | the initial call settles once. A resolution is stored unless aborted. An abort-kind rejection writes nothing. Any other rejection is stored as the error unless aborted |
| Listen.Wake | src/index.tsx:89-111 | the race settles only for a waiting loop and writes no state cell. After unsubscribe the generator ends, whichever promise won. A mounted loop starts one refresh call on every announcement, whatever its keys. `undefined` sends the loop round to one new waiter. Only the loop position and the call count change; the initial call, the signals and `done` are left alone |
| Listen.RefreshSettle | src/index.tsx:110-125 | only an in-flight refresh settles. A resolution is committed unless aborted and leaves `error` alone. An abort-kind rejection writes nothing and stops the loop. Any other rejection is committed as the error unless aborted and leaves `data` alone. Apart from the abort case, the loop ends if unsubscribed and otherwise registers exactly one fresh waiter. The initial call, the signals and `done` are left alone |
| Listen.Unmounted | src/index.tsx:130-133 | unmount sets `done`, aborts both signals and changes nothing else |
| Listen.Step | src/index.tsx:51-133 | one continuation. It registers at most one waiter and never touches resolutions. `done` and the abort flags never revert, only unmount sets `done`, and nothing is written after abort. Only the initial call's own settlement changes whether it is pending, and only unmount aborts its signal. After unsubscribe, no waiter and no getter call. A stopped loop stays stopped. There is exactly one refresh call per announcement the mounted loop takes. An abort-kind rejection never writes the error, and the error cell only changes to the value of a non-abort rejection |
| Listen.Observe | src/index.tsx:138-142 | the render throws exactly when a truthy error is stored (throwing that error); otherwise it returns `data` |
| ListenFacts.NoWriteAfterAbort | src/index.tsx:53-125 | once the signals are aborted, no later getter result, in the initial fetch or the refresh loop, changes `data` or `error` |
| ListenFacts.DoneIsFinal | src/index.tsx:79-95 | once `done` is set it stays set, no waiter is registered, no refresh call starts, and a loop that is not fetching never fetches again |
| ListenFacts.ErrorOnlyFromRejections | src/index.tsx:110-125 | over any event sequence, the error cell ends up either as it was or holding the value of some non-abort rejection among the events; `setData` and abort-kind rejections never write it, and the value written may be falsy, including `undefined` |
| ListenFacts.ThrowPersists | src/index.tsx:110-142 | once the render throws, it keeps throwing under any event sequence in which no non-abort rejection carries a falsy value |
| ListenFacts.FalsyRejectionStopsThrow | src/index.tsx:120-142 | a mounted refresh rejected with a falsy value runs `setError` with it, so the render returns `data` again |
| ListenFacts.RefreshSuccessCommits | src/index.tsx:111-115 | a mounted refresh call that resolves stores its value, leaves `error` alone and registers exactly one never-issued waiter; the registry stays valid |
| ListenFacts.OldEffectIsInert | src/index.tsx:51-133 | after both cleanups, no continuation of the old effects writes `data` or `error` or registers a waiter |
| ListenFacts.StoppedIsFinal | src/index.tsx:105-128 | a finished refresh loop never resumes, registers nothing and starts no call |
| ListenFacts.RunPreservesInv | src/index.tsx:130-133 | any event sequence keeps "both signals are aborted exactly when done is set, each fired at most once" and keeps the registry valid |
| ListenFacts.AbortRejectionEndsListening | src/index.tsx:116-119 | an abort-kind refresh rejection writes nothing, and the loop stays stopped under any later events |
| ListenFacts.InitAbortRejectionIsSilent | src/index.tsx:61-64 | an abort-kind rejection of the initial call only marks it settled |
| ListenFacts.StaleInitialOverwrites | src/index.tsx:53-115 | while the initial call is pending, a refresh result commits, and the initial result that settles afterwards replaces it with the older data |
| ListenFacts.OtherRefreshFailureKeepsListening | src/index.tsx:120-125 | a refresh failure that is not an abort, while mounted, stores the error and registers a new waiter |
| ListenFacts.RefreshDoesNotClearError | src/index.tsx:113-115 | a successful refresh stores the data but leaves a stored error, so the render still throws it |
| ListenFacts.AnnouncementAlwaysRefetches | src/index.tsx:106-111 | every announcement a mounted, waiting loop receives starts one refresh call, whatever its keys |
| ListenFacts.WakeAfterDoneStops | src/index.tsx:89-95 | when the race settles after unsubscribe, the generator ends, even when the announcement won |
| ListenFacts.UnmountIdempotent | src/index.tsx:25-29 | unmounting twice has the effect of unmounting once |
| ListenFacts.UnmountDuringRefresh | src/index.tsx:111-125 | a refresh call pending at unmount settles without writing state or registering a waiter, whatever its outcome |
| World.EmptyWorldIsValid | src/index.tsx:3 | with no subscriptions and an empty registry, the world invariant holds |
| World.DeliverPreservesWInv | src/index.tsx:85-128 | a continuation of one subscription keeps every subscription's waiter live and distinct |
| World.WStepPreservesWInv | src/index.tsx:85-152 | every world event keeps the world invariant: a waiting subscription's waiter is issued, and is either registered or resolved; no two subscriptions share a waiter |
| World.WRunPreservesWInv | src/index.tsx:85-152 | the world invariant holds after any event sequence |
| World.ResubscribeKeepsRender | src/index.tsx:47-48 | re-subscribing a mounted component keeps what it renders and leaves every other subscription alone. It starts a new initial call, and one new waiter joins the registry |
| World.NoResubscribeAfterUnmount | src/index.tsx:130-135 | once a component has unmounted, a change of `keys` or `deps` re-runs no effect for it: the world is unchanged |
| World.EmptyAnnounceIsNoop | src/index.tsx:145-146 | `notify()` with no keys changes nothing |
| World.AnnounceReachesEveryWaiter | src/index.tsx:145-152 | `notify(k1..kn)` resolves every waiting subscription's registered waiter with the identical keys, empties the registry and leaves subscription state alone; every waiting subscription then holds a non-empty value |
| World.ResolvedWaiterStartsOneRefresh | src/index.tsx:89-111 | a mounted subscription whose waiter was resolved starts exactly one refresh call when its race settles, and no other subscription or the registry changes |
| World.WakeStartsRefresh | src/index.tsx:96-111 | an announcement handed to a waiting, mounted subscription moves it to fetching and changes nothing else |
| Scenario.MountStep | src/index.test.tsx:32 | mounting registers waiter 0 with the initial call pending |
| Scenario.InitStep | src/index.test.tsx:36-41 | the initial call's result is committed |
| Scenario.AnnounceStep | src/index.test.tsx:43 | `notify` resolves waiter 0 and empties the registry |
| Scenario.RaceStep | src/index.test.tsx:43 | the resolved race starts the second getter call |
| Scenario.RefreshStep | src/index.test.tsx:45-50 | the refresh result is committed and waiter 1 is registered |
| Scenario.RefetchingIsReached | src/index.test.tsx:28-43 | mount, the initial result and `notify("cats")` leave the subscription fetching with no waiter of its own registered |
| Scenario.AnnounceWhileFetchingStep | src/index.tsx:147-150 | an announcement made while the subscription's refresh call is in flight changes nothing |
| Scenario.AnnouncementDuringRefreshIsLost | src/index.tsx:145-150 | a second `notify("cats")` during the refresh leaves the world unchanged; after the refresh settles only one refresh call has happened and the new waiter is unresolved |
| Scenario.CatsScenario | src/index.test.tsx:28-50 | before the first commit the render returns undefined, after the initial fetch one cat, after `notify("cats")` two cats |
| Scenario.DogsMissCats | src/index.tsx:12-14 | `intersects(["dogs"], ["cats"])` is the empty array |
| Scenario.DogsAnnouncementRefetches | src/index.tsx:109 | `notify("dogs")` still makes the ["cats"] subscription refetch and commit the new result |
| Scenario.InitialFailureThrows | src/index.tsx:61-67 | a non-abort rejection of the first call makes the render throw that error |

## Left out

- React itself (`useState`, `useEffect`, re-rendering, throwing during render) is left out. The state cells are record fields, and the render is `Observe`, which returns a result union.
- Promise machinery (`invertPromise`, `raceToSuccess`, `Promise.all`, the async generator, `for await`) and microtask scheduling are left out. Each continuation is an explicit event, and events may come in any order. `raceToSuccess(unsubscribed, subscribe())` is reduced to "the waiter won" (allowed once it is resolved) or "unsubscribed won" (allowed once `done` is set).
- The caller's `getter` is opaque. Its settlement is an event parameter. A rejection is either an abort-kind `DOMException` (`code == ABORT_ERR`) or any other value.
- `AbortController` internals (event listeners, reasons) are left out. A controller is an aborted flag plus a count of fired abort events.
- The `deps` values themselves are left out. Only their effect is modelled: a change of `keys` or `deps` is `Resubscribe`. It keeps the `useState` cells, and it drops the old effects' continuations, which `OldEffectIsInert` shows write nothing. The old generator's waiter stays in the registry, as in the source.
- The test harness (`render`, `act`, `waitFor`, the DOM) is left out. The scenario replays its run on the model.
- Iterating `accepts` while it grows is not modelled. Resolving a promise schedules its continuations and never runs them synchronously, so no waiter can be pushed during `notify`'s loop.

=== FILE: abort.dfy ===
/**
  The part of `AbortController` the hooks rely on, and the cleanup that
  `useAbortSignal` (src/index.tsx:16-31) registers with React.
*/
module AbortSignal {

  /** `dispatched` counts the abort events the signal has fired to its
      listeners (the getter's fetch, for one). */
  datatype Controller = Controller(aborted: bool, dispatched: nat)

  const Fresh: Controller := Controller(false, 0)

  /** `abortController.abort()`: the platform ignores a second call. */
  function Abort(c: Controller): (r: Controller)
    ensures r.aborted
    ensures c.aborted ==> r == c
    ensures !c.aborted ==> r.dispatched == c.dispatched + 1
  {
    if c.aborted then c else Controller(true, c.dispatched + 1)
  }

  /** The cleanup returned by `useAbortSignal`: abort only when not already aborted. */
  function Cleanup(c: Controller): (r: Controller)
    ensures r.aborted
    ensures r.dispatched <= c.dispatched + 1
    ensures c.aborted ==> r == c
  {
    if !c.aborted then Abort(c) else c
  }

  /** Running the cleanup twice is the same as running it once. */
  lemma CleanupIdempotent(c: Controller)
    ensures Cleanup(Cleanup(c)) == Cleanup(c)
  {
  }

  function CleanupTimes(c: Controller, n: nat): Controller
    decreases n
  {
    if n == 0 then c else Cleanup(CleanupTimes(c, n - 1))
  }

  /** However often the cleanup runs on a fresh controller, the signal
      fires exactly one abort event. */
  lemma {:induction false} RepeatedCleanupFiresOnce(n: nat)
    requires n >= 1
    ensures CleanupTimes(Fresh, n) == Controller(true, 1)
    decreases n
  {
    if n > 1 {
      RepeatedCleanupFiresOnce(n - 1);
    }
  }
}

=== FILE: listen.dfy ===
/**
  One `useListen(keys, getter)` subscription of src/index.tsx:42-143, with
  React state reduced to record fields and every promise continuation
  turned into an explicit event.

  Two tasks run from mount on:
  - the initial fetch (lines 51-71), guarded by the controller that
    `useAbortSignal` creates;
  - the refresh loop (lines 73-136): the generator waits on a race between
    the next announcement and `unsubscribed`, and `listen` re-runs the
    getter, guarded by a second controller, for every value it yields.

  Unmounting runs both effects' cleanups before any continuation can run,
  so it is one event.
*/
module Listen {

  import opened Wrappers
  import opened Registry
  import opened AbortSignal
  import Overlap

  /** A getter rejection: a `DOMException` with code `ABORT_ERR`, or anything else. */
  datatype Failure<E> = AbortError | Other(error: E)

  /** How one `getter(signal)` promise settled. */
  datatype Outcome<T, E> = Resolved(value: T) | Rejected(failure: Failure<E>)

  /** Where the refresh loop is suspended: on the race holding one hub
      waiter, on a refresh `getter` call, or finished for good. */
  datatype Loop = Waiting(waiter: WaiterId) | Fetching | Stopped

  /** `data` and `error` are the two `useState` cells; `done` is the
      generator's flag; `refreshes` counts the getter calls the loop made.
      A getter that resolves with `undefined` is stored as `Some` of it,
      which the render in JavaScript cannot tell from the initial `None`. */
  datatype Sub<T, E> = Sub(
    keys: seq<string>,
    initPending: bool,
    initSignal: Controller,
    loopSignal: Controller,
    done: bool,
    loop: Loop,
    data: Option<T>,
    error: Option<E>,
    refreshes: nat)

  /** The continuations that can run for one subscription.
      `Woken(Some(keys))`: the race settled with the hub's announcement;
      `Woken(None)`: it settled with `unsubscribed`. */
  datatype Event<T, E> =
    | InitSettled(outcome: Outcome<T, E>)
    | Woken(value: Option<seq<string>>)
    | RefreshSettled(outcome: Outcome<T, E>)
    | Unmount

  predicate Aborted<T, E>(s: Sub<T, E>) {
    s.initSignal.aborted && s.loopSignal.aborted
  }

  /** Both controllers are aborted exactly when `done` is set, and each
      fired at most one abort event. */
  predicate Inv<T, E>(s: Sub<T, E>) {
    && s.initSignal.aborted == s.done
    && s.loopSignal.aborted == s.done
    && s.initSignal.dispatched == (if s.done then 1 else 0)
    && s.loopSignal.dispatched == (if s.done then 1 else 0)
  }

  /** The state right after mount: the initial getter call is in flight and
      the generator has registered its first waiter. */
  function Mount<T, E>(h: Hub, keys: seq<string>): (r: (Hub, Sub<T, E>))
    ensures r.1.keys == keys && r.1.initPending && !r.1.done && r.1.refreshes == 0
    ensures r.1.data == None && r.1.error == None
    ensures Inv(r.1) && !Aborted(r.1)
    ensures r.1.loop.Waiting? && r.0.pending == h.pending + [r.1.loop.waiter]
    ensures r.0.delivered == h.delivered && r.0.nextId > r.1.loop.waiter
    ensures Valid(h) ==> Valid(r.0) && r.1.loop.waiter !in h.delivered
  {
    var reg := Subscribe(h);
    (reg.0, Sub(keys, true, Fresh, Fresh, false, Waiting(reg.1), None, None, 0))
  }

  /** A change of `keys` or `deps` (lines 70 and 135): React runs both
      cleanups and starts both effects again on the same component, so the
      `useState` cells keep their values while a new initial call, new
      controllers and a new generator with its first waiter start. The old
      effects' continuations are inert (`ListenFacts.OldEffectIsInert`) and
      are dropped. */
  function Resubscribe<T, E>(h: Hub, s: Sub<T, E>, keys: seq<string>): (r: (Hub, Sub<T, E>))
    requires !s.done
    ensures r.1.data == s.data && r.1.error == s.error
    ensures r.1.keys == keys && r.1.initPending && !r.1.done && r.1.refreshes == 0
    ensures Inv(r.1) && !Aborted(r.1)
    ensures r.1.loop.Waiting? && r.0.pending == h.pending + [r.1.loop.waiter]
    ensures r.0.delivered == h.delivered && h.nextId <= r.1.loop.waiter < r.0.nextId
    ensures Valid(h) ==> Valid(r.0) && r.1.loop.waiter !in h.delivered
  {
    var m := Mount<T, E>(h, keys);
    (m.0, m.1.(data := s.data, error := s.error))
  }

  /** The top of `while (!done)`: leave the generator, or register a new waiter. */
  function LoopTop<T, E>(h: Hub, s: Sub<T, E>): (r: (Hub, Sub<T, E>))
    // only the loop's position changes
    ensures r.1 == s.(loop := r.1.loop)
    ensures s.done ==> r.0 == h && r.1.loop.Stopped?
    // otherwise exactly one waiter, never issued before, joins the end of the registry
    ensures !s.done ==> && r.1.loop.Waiting?
                        && r.0.pending == h.pending + [r.1.loop.waiter]
                        && r.0.delivered == h.delivered
                        && h.nextId <= r.1.loop.waiter < r.0.nextId
    ensures !s.done && Valid(h) ==> r.1.loop.waiter !in h.pending && r.1.loop.waiter !in h.delivered && Valid(r.0)
  {
    if s.done then (h, s.(loop := Stopped))
    else
      var reg := Subscribe(h);
      (reg.0, s.(loop := Waiting(reg.1)))
  }

  /** Lines 52-68: the initial getter settles once. A resolution is stored
      unless the signal is aborted; an abort-kind rejection is dropped; any
      other rejection is stored as the error unless the signal is aborted. */
  function InitSettle<T, E>(s: Sub<T, E>, o: Outcome<T, E>): (r: Sub<T, E>)
    ensures !s.initPending ==> r == s
    ensures s.initPending ==> !r.initPending
    ensures r == s.(initPending := r.initPending, data := r.data, error := r.error)
    ensures s.initSignal.aborted ==> r.data == s.data && r.error == s.error
    ensures o.Rejected? && o.failure.AbortError? ==> r.data == s.data && r.error == s.error
    ensures s.initPending && !s.initSignal.aborted && o.Resolved? ==> r.data == Some(o.value) && r.error == s.error
    ensures s.initPending && !s.initSignal.aborted && o.Rejected? && o.failure.Other? ==> r.error == Some(o.failure.error) && r.data == s.data
  {
    if !s.initPending then s
    else
      var s1 := s.(initPending := false);
      match o
      case Resolved(v) => if s.initSignal.aborted then s1 else s1.(data := Some(v))
      case Rejected(AbortError) => s1
      case Rejected(Other(e)) => if s.initSignal.aborted then s1 else s1.(error := Some(e))
  }

  /** Lines 89-99 and 106-109: the race settles. If `done` the generator
      returns. An announcement (any array is truthy) is yielded, and since
      the `intersects` guard is an array it is always taken: a refresh
      getter call starts. `undefined` goes round the loop again. */
  function Wake<T, E>(h: Hub, s: Sub<T, E>, value: Option<seq<string>>): (r: (Hub, Sub<T, E>))
    // the race settles only for a loop that is waiting on it
    ensures !s.loop.Waiting? ==> r == (h, s)
    // no state cell is ever written here, and the initial call is left alone
    ensures r.1.data == s.data && r.1.error == s.error && r.1.keys == s.keys
    ensures r.1 == s.(loop := r.1.loop, refreshes := r.1.refreshes)
    // after unsubscribe the generator returns, whichever promise won
    ensures s.loop.Waiting? && s.done ==> r.0 == h && r.1.loop.Stopped? && r.1.refreshes == s.refreshes
    // a mounted loop refetches on every announcement, whether or not a key overlaps
    ensures s.loop.Waiting? && !s.done && value.Some? ==>
              r.0 == h && r.1.loop.Fetching? && r.1.refreshes == s.refreshes + 1
    // `undefined` is not yielded: the loop registers one new waiter
    ensures s.loop.Waiting? && !s.done && value.None? ==>
              && r.1.loop.Waiting? && r.1.refreshes == s.refreshes
              && r.0.pending == h.pending + [r.1.loop.waiter] && r.0.delivered == h.delivered
  {
    if !s.loop.Waiting? then (h, s)
    else if s.done then (h, s.(loop := Stopped))
    else
      match value
      case Some(notifications) =>
        if Overlap.Truthy(Overlap.Intersects(notifications, s.keys))
        then (h, s.(loop := Fetching, refreshes := s.refreshes + 1))
        else LoopTop(h, s)
      case None => LoopTop(h, s)
  }

  /** Lines 111-125: a refresh getter call settles. A resolution is stored
      unless aborted (the error is left as it was) and the loop continues;
      an abort-kind rejection ends `listen`; any other rejection is stored
      unless aborted and the loop continues. */
  function RefreshSettle<T, E>(h: Hub, s: Sub<T, E>, o: Outcome<T, E>): (r: (Hub, Sub<T, E>))
    // only an in-flight refresh call can settle
    ensures !s.loop.Fetching? ==> r == (h, s)
    ensures r.1.keys == s.keys && r.1.refreshes == s.refreshes && r.0.delivered == h.delivered
    // the initial call, the signals and `done` are left alone
    ensures r.1 == s.(loop := r.1.loop, data := r.1.data, error := r.1.error)
    // a resolution is committed unless aborted; `error` is left as it was
    ensures s.loop.Fetching? && o.Resolved? ==>
              r.1.error == s.error && r.1.data == (if s.loopSignal.aborted then s.data else Some(o.value))
    // an abort-kind rejection writes nothing and ends `listen`
    ensures s.loop.Fetching? && o.Rejected? && o.failure.AbortError? ==>
              r.0 == h && r.1.loop.Stopped? && r.1.data == s.data && r.1.error == s.error
    // any other rejection is committed unless aborted; `data` is left as it was
    ensures s.loop.Fetching? && o.Rejected? && o.failure.Other? ==>
              r.1.data == s.data && r.1.error == (if s.loopSignal.aborted then s.error else Some(o.failure.error))
    // except after an abort-kind rejection the loop goes round: it ends if
    // unsubscribed, and otherwise registers exactly one new waiter
    ensures s.loop.Fetching? && !(o.Rejected? && o.failure.AbortError?) && s.done ==> r.0 == h && r.1.loop.Stopped?
    ensures s.loop.Fetching? && !(o.Rejected? && o.failure.AbortError?) && !s.done ==>
              && r.1.loop.Waiting?
              && r.0.pending == h.pending + [r.1.loop.waiter]
              && h.nextId <= r.1.loop.waiter < r.0.nextId
  {
    if !s.loop.Fetching? then (h, s)
    else
      match o
      case Resolved(v) => LoopTop(h, if s.loopSignal.aborted then s else s.(data := Some(v)))
      case Rejected(AbortError) => (h, s.(loop := Stopped))
      case Rejected(Other(e)) => LoopTop(h, if s.loopSignal.aborted then s else s.(error := Some(e)))
  }

  /** Both effect cleanups: `useAbortSignal`'s guarded abort (lines 25-29),
      then `abortController.abort()` and `unsubscribe()` (lines 130-133). */
  function Unmounted<T, E>(s: Sub<T, E>): (r: Sub<T, E>)
    ensures r.done && Aborted(r)
    ensures r == s.(initSignal := r.initSignal, loopSignal := r.loopSignal, done := true)
    ensures Inv(s) ==> Inv(r)
  {
    s.(initSignal := Cleanup(s.initSignal), loopSignal := Abort(s.loopSignal), done := true)
  }

  function Step<T, E>(h: Hub, s: Sub<T, E>, ev: Event<T, E>): (r: (Hub, Sub<T, E>))
    // the configuration and the hub's resolved waiters are never touched
    ensures r.1.keys == s.keys && r.0.delivered == h.delivered
    // at most one waiter is registered, and it becomes the loop's waiter
    ensures r.0 == h || (&& r.1.loop.Waiting?
                         && r.0.pending == h.pending + [r.1.loop.waiter]
                         && h.nextId <= r.1.loop.waiter < r.0.nextId)
    ensures r.0.nextId >= h.nextId
    ensures r.0 == h && r.1.loop.Waiting? ==> r.1.loop == s.loop
    // `done` and the abort flags never revert; only unmount sets `done`
    ensures s.done ==> r.1.done
    ensures !ev.Unmount? ==> r.1.done == s.done
    // the refresh loop never touches the initial call, which runs independently
    ensures !ev.InitSettled? ==>
              && r.1.initPending == s.initPending
              && r.1.initSignal == (if ev.Unmount? then Cleanup(s.initSignal) else s.initSignal)
    ensures Aborted(s) ==> Aborted(r.1)
    // no write after abort
    ensures Aborted(s) ==> r.1.data == s.data && r.1.error == s.error
    // after unsubscribe: no new waiter and no new getter call
    ensures s.done ==> r.0 == h && r.1.refreshes == s.refreshes
    ensures s.done && r.1.loop.Fetching? ==> s.loop.Fetching?
    // a finished loop stays finished
    ensures s.loop.Stopped? ==> r.0 == h && r.1.loop.Stopped? && r.1.refreshes == s.refreshes
    // one refresh getter call per announcement the loop takes, and no other
    ensures r.1.refreshes == (if ev.Woken? && ev.value.Some? && s.loop.Waiting? && !s.done
                              then s.refreshes + 1 else s.refreshes)
    // the error cell only changes to the value of a non-abort rejection;
    // once written, the model keeps it tagged as written even when that
    // value is `undefined`, which JavaScript cannot tell from the initial one
    ensures s.error.Some? ==> r.1.error.Some?
    ensures r.1.error == s.error
            || (&& (ev.InitSettled? || ev.RefreshSettled?)
                && ev.outcome.Rejected? && ev.outcome.failure.Other?
                && r.1.error == Some(ev.outcome.failure.error))
    // an abort-kind rejection never writes the error
    ensures (ev.InitSettled? || ev.RefreshSettled?) && ev.outcome.Rejected? && ev.outcome.failure.AbortError?
            ==> r.1.error == s.error && r.1.data == s.data
    ensures Inv(s) ==> Inv(r.1)
    ensures Valid(h) ==> Valid(r.0)
  {
    match ev
    case InitSettled(o) => (h, InitSettle(s, o))
    case Woken(value) => Wake(h, s, value)
    case RefreshSettled(o) => RefreshSettle(h, s, o)
    case Unmount => (h, Unmounted(s))
  }

  function Run<T, E>(h: Hub, s: Sub<T, E>, evs: seq<Event<T, E>>): (Hub, Sub<T, E>)
    decreases |evs|
  {
    if |evs| == 0 then (h, s)
    else
      var r := Step(h, s, evs[0]);
      Run(r.0, r.1, evs[1..])
  }

  /** What the component sees when it renders: `if (error) throw error;
      return data;`. Whether a stored error value is truthy is a property
      of the JavaScript value, given as `truthy`. */
  datatype Observation<T, E> = Throws(error: E) | Returns(value: Option<T>)

  function Observe<T, E>(s: Sub<T, E>, truthy: E -> bool): (r: Observation<T, E>)
    ensures r.Throws? <==> s.error.Some? && truthy(s.error.value)
    ensures r.Throws? ==> r.error == s.error.value
    ensures r.Returns? ==> r.value == s.data
  {
    if s.error.Some? && truthy(s.error.value) then Throws(s.error.value) else Returns(s.data)
  }
}

=== FILE: listen_facts.dfy ===
/**
  Properties of the `useListen` state machine over whole event sequences,
  and the places where the code departs from what its comments suggest.
*/
module ListenFacts {

  import opened Wrappers
  import opened Registry
  import opened AbortSignal
  import opened Listen

  /** Once both signals are aborted, no continuation of the initial fetch or
      of the refresh loop writes `data` or `error` again. */
  lemma {:induction false} NoWriteAfterAbort<T, E>(h: Hub, s: Sub<T, E>, evs: seq<Event<T, E>>)
    requires Aborted(s)
    ensures Aborted(Run(h, s, evs).1)
    ensures Run(h, s, evs).1.data == s.data && Run(h, s, evs).1.error == s.error
    decreases |evs|
  {
    if |evs| > 0 {
      var r := Step(h, s, evs[0]);
      NoWriteAfterAbort(r.0, r.1, evs[1..]);
    }
  }

  /** After unsubscribe, `done` stays set, no waiter is registered and no
      refresh getter call starts; a loop not already fetching never fetches
      again. */
  lemma {:induction false} DoneIsFinal<T, E>(h: Hub, s: Sub<T, E>, evs: seq<Event<T, E>>)
    requires s.done
    ensures Run(h, s, evs).1.done
    ensures Run(h, s, evs).0 == h
    ensures Run(h, s, evs).1.refreshes == s.refreshes
    ensures !s.loop.Fetching? ==> !Run(h, s, evs).1.loop.Fetching?
    decreases |evs|
  {
    if |evs| > 0 {
      var r := Step(h, s, evs[0]);
      DoneIsFinal(r.0, r.1, evs[1..]);
    }
  }

  /** `ev` is a non-abort rejection whose value is `e`. */
  ghost predicate RejectsWith<T, E>(ev: Event<T, E>, e: E) {
    && (ev.InitSettled? || ev.RefreshSettled?)
    && ev.outcome.Rejected? && ev.outcome.failure.Other?
    && ev.outcome.failure.error == e
  }

  /** Over any event sequence the error cell either keeps its value or ends
      up holding the value of some non-abort rejection among the events:
      `setData` never writes it, and neither does an abort-kind rejection.
      The value may be falsy (see `FalsyRejectionStopsThrow`). */
  lemma {:induction false} ErrorOnlyFromRejections<T, E>(h: Hub, s: Sub<T, E>, evs: seq<Event<T, E>>)
    ensures var e := Run(h, s, evs).1.error;
            e == s.error || (e.Some? && exists i :: 0 <= i < |evs| && RejectsWith(evs[i], e.value))
    decreases |evs|
  {
    if |evs| > 0 {
      var r := Step(h, s, evs[0]);
      ErrorOnlyFromRejections(r.0, r.1, evs[1..]);
      var e := Run(h, s, evs).1.error;
      if e != s.error {
        if e == r.1.error {
          assert RejectsWith(evs[0], e.value);
        } else {
          var i :| 0 <= i < |evs[1..]| && RejectsWith(evs[1..][i], e.value);
          assert RejectsWith(evs[i + 1], e.value);
        }
      }
    }
  }

  /** No non-abort rejection in `evs` carries a falsy value. */
  ghost predicate NoFalsyRejection<T, E>(evs: seq<Event<T, E>>, truthy: E -> bool) {
    forall i :: 0 <= i < |evs| && (evs[i].InitSettled? || evs[i].RefreshSettled?)
                && evs[i].outcome.Rejected? && evs[i].outcome.failure.Other?
                ==> truthy(evs[i].outcome.failure.error)
  }

  /** Once the render throws, it keeps throwing under any events that
      reject with no falsy value: successful fetches never reset `error`. */
  lemma {:induction false} ThrowPersists<T, E>(h: Hub, s: Sub<T, E>, evs: seq<Event<T, E>>, truthy: E -> bool)
    requires Observe(s, truthy).Throws?
    requires NoFalsyRejection(evs, truthy)
    ensures Observe(Run(h, s, evs).1, truthy).Throws?
    decreases |evs|
  {
    if |evs| > 0 {
      var r := Step(h, s, evs[0]);
      assert NoFalsyRejection(evs[1..], truthy) by {
        forall i | 0 <= i < |evs[1..]|
          ensures evs[1..][i] == evs[i + 1]
        {
        }
      }
      ThrowPersists(r.0, r.1, evs[1..], truthy);
    }
  }

  /** A non-abort refresh rejection with a falsy value (`Promise.reject()`)
      runs `setError(undefined)`: the render stops throwing and shows the
      last data again. */
  lemma FalsyRejectionStopsThrow<T, E>(h: Hub, s: Sub<T, E>, e: E, truthy: E -> bool)
    requires Inv(s) && s.loop.Fetching? && !s.done && !truthy(e)
    ensures var r := Step(h, s, RefreshSettled(Rejected(Other(e))));
            Observe(r.1, truthy) == Returns(s.data)
  {
  }

  /** A mounted refresh call that resolves commits its value, leaves the
      error alone and registers exactly one new, never-issued waiter. */
  lemma RefreshSuccessCommits<T, E>(h: Hub, s: Sub<T, E>, v: T)
    requires Inv(s) && Valid(h) && s.loop.Fetching? && !s.done
    ensures var r := Step(h, s, RefreshSettled(Resolved(v)));
            && r.1.data == Some(v) && r.1.error == s.error
            && r.1.loop.Waiting? && r.0.pending == h.pending + [r.1.loop.waiter]
            && r.1.loop.waiter !in h.pending && r.1.loop.waiter !in h.delivered
            && Valid(r.0)
  {
  }

  /** After their cleanups, the old effects' continuations neither write
      the state cells nor register a waiter, whatever they are; so a
      re-subscription may drop them. */
  lemma OldEffectIsInert<T, E>(h: Hub, s: Sub<T, E>, evs: seq<Event<T, E>>)
    ensures var u := Unmounted(s);
            && Run(h, u, evs).0 == h
            && Run(h, u, evs).1.data == s.data && Run(h, u, evs).1.error == s.error
  {
    var u := Unmounted(s);
    NoWriteAfterAbort(h, u, evs);
    DoneIsFinal(h, u, evs);
  }

  /** A finished refresh loop never resumes. */
  lemma {:induction false} StoppedIsFinal<T, E>(h: Hub, s: Sub<T, E>, evs: seq<Event<T, E>>)
    requires s.loop.Stopped?
    ensures Run(h, s, evs).1.loop.Stopped?
    ensures Run(h, s, evs).0 == h
    ensures Run(h, s, evs).1.refreshes == s.refreshes
    decreases |evs|
  {
    if |evs| > 0 {
      var r := Step(h, s, evs[0]);
      StoppedIsFinal(r.0, r.1, evs[1..]);
    }
  }

  /** Every event sequence keeps the subscription invariant and the
      registry valid. */
  lemma {:induction false} RunPreservesInv<T, E>(h: Hub, s: Sub<T, E>, evs: seq<Event<T, E>>)
    requires Inv(s) && Valid(h)
    ensures Inv(Run(h, s, evs).1) && Valid(Run(h, s, evs).0)
    ensures Run(h, s, evs).1.keys == s.keys
    decreases |evs|
  {
    if |evs| > 0 {
      var r := Step(h, s, evs[0]);
      RunPreservesInv(r.0, r.1, evs[1..]);
    }
  }

  /** An abort-kind rejection of a refresh call leaves `data` and `error`
      alone and ends the loop for good, whatever happens afterwards. */
  lemma AbortRejectionEndsListening<T, E>(h: Hub, s: Sub<T, E>, evs: seq<Event<T, E>>)
    requires s.loop.Fetching?
    ensures var r := Step(h, s, RefreshSettled(Rejected(AbortError)));
            && r.0 == h && r.1.data == s.data && r.1.error == s.error
            && Run(r.0, r.1, evs).1.loop.Stopped?
            && Run(r.0, r.1, evs).0 == h
            && Run(r.0, r.1, evs).1.refreshes == s.refreshes
  {
    var r := Step(h, s, RefreshSettled(Rejected(AbortError)));
    StoppedIsFinal(r.0, r.1, evs);
  }

  /** An abort-kind rejection of the initial call changes nothing but
      marking that call settled. */
  lemma InitAbortRejectionIsSilent<T, E>(h: Hub, s: Sub<T, E>)
    ensures var r := Step(h, s, InitSettled(Rejected(AbortError)));
            r.0 == h && r.1 == s.(initPending := false)
  {
  }

  /** The initial call and the refresh loop run independently: an initial
      result that settles after a newer refresh result still commits, so
      the older data replaces the newer one. */
  lemma StaleInitialOverwrites<T, E>(h: Hub, s: Sub<T, E>, older: T, newer: T)
    requires Inv(s) && !s.done && s.initPending && s.loop.Fetching?
    ensures var r1 := Step(h, s, RefreshSettled(Resolved(newer)));
            var r2 := Step(r1.0, r1.1, InitSettled(Resolved(older)));
            && r1.1.data == Some(newer) && r1.1.initPending
            && r2.1.data == Some(older) && !r2.1.initPending
  {
  }

  /** A refresh failure that is not an abort is stored, and the loop
      registers a new waiter: the source has no `return` after `setError`. */
  lemma OtherRefreshFailureKeepsListening<T, E>(h: Hub, s: Sub<T, E>, e: E)
    requires Inv(s) && s.loop.Fetching? && !s.done
    ensures var r := Step(h, s, RefreshSettled(Rejected(Other(e))));
            && r.1.error == Some(e) && r.1.data == s.data
            && r.1.loop.Waiting? && r.0.pending == h.pending + [r.1.loop.waiter]
  {
  }

  /** `setData` does not clear `error`: once a truthy error is stored, a
      later successful refresh updates `data` but the component still throws. */
  lemma RefreshDoesNotClearError<T, E>(h: Hub, s: Sub<T, E>, v: T, truthy: E -> bool)
    requires Inv(s) && s.loop.Fetching? && !s.done
    requires s.error.Some? && truthy(s.error.value)
    ensures var r := Step(h, s, RefreshSettled(Resolved(v)));
            r.1.data == Some(v) && Observe(r.1, truthy) == Throws(s.error.value)
  {
  }

  /** Every announcement the loop receives starts a refresh getter call,
      whether or not it shares a key with the subscription: the
      `intersects` guard is an array and always truthy. */
  lemma AnnouncementAlwaysRefetches<T, E>(h: Hub, s: Sub<T, E>, notifications: seq<string>)
    requires s.loop.Waiting? && !s.done
    ensures var r := Step(h, s, Woken(Some(notifications)));
            && r.0 == h && r.1.loop.Fetching? && r.1.refreshes == s.refreshes + 1
            && r.1.data == s.data && r.1.error == s.error
  {
    Overlap.GuardIgnoresOverlap(notifications, s.keys);
  }

  /** The race settling after unsubscribe ends the generator even when the
      announcement won it. */
  lemma WakeAfterDoneStops<T, E>(h: Hub, s: Sub<T, E>, value: Option<seq<string>>)
    requires s.loop.Waiting? && s.done
    ensures Step(h, s, Woken(value)) == (h, s.(loop := Stopped))
  {
  }

  /** Unmounting twice has the effect of unmounting once. */
  lemma UnmountIdempotent<T, E>(h: Hub, s: Sub<T, E>)
    ensures var once := Step(h, s, Unmount);
            Step(once.0, once.1, Unmount) == once
  {
    CleanupIdempotent(s.initSignal);
  }

  /** A refresh call pending at unmount settles without touching state,
      whatever its outcome, and the loop then ends without a new waiter. */
  lemma UnmountDuringRefresh<T, E>(h: Hub, s: Sub<T, E>, o: Outcome<T, E>)
    requires s.loop.Fetching?
    ensures var u := Step(h, s, Unmount);
            var r := Step(u.0, u.1, RefreshSettled(o));
            && r.0 == h && r.1.data == s.data && r.1.error == s.error && r.1.loop.Stopped?
  {
  }
}

=== FILE: overlap.dfy ===
/**
  `intersects(a, b)` of src/index.tsx: `a.filter(value => b.includes(value))`.
  Despite its comment it returns the filtered array, not a boolean, and the
  refresh loop tests that array with JavaScript truthiness.
*/
module Overlap {

  /** The elements of `a` that occur in `b`, in `a`'s order, duplicates kept. */
  function Intersects<T(==)>(a: seq<T>, b: seq<T>): (r: seq<T>)
    ensures |r| <= |a|
    ensures forall i :: 0 <= i < |r| ==> r[i] in a && r[i] in b
    ensures forall i :: 0 <= i < |a| && a[i] in b ==> a[i] in r
    decreases |a|
  {
    if |a| == 0 then []
    else (if a[0] in b then [a[0]] else []) + Intersects(a[1..], b)
  }

  /** `s` is obtained from `t` by deleting elements. */
  predicate IsSubsequence<T(==)>(s: seq<T>, t: seq<T>)
    decreases |t|
  {
    if |s| == 0 then true
    else if |t| == 0 then false
    else (s[0] == t[0] && IsSubsequence(s[1..], t[1..])) || IsSubsequence(s, t[1..])
  }

  /** The result keeps `a`'s order: it is a subsequence of `a`. */
  lemma {:induction false} IntersectsIsSubsequence<T>(a: seq<T>, b: seq<T>)
    ensures IsSubsequence(Intersects(a, b), a)
    decreases |a|
  {
    if |a| > 0 {
      IntersectsIsSubsequence(a[1..], b);
      var rest := Intersects(a[1..], b);
      if a[0] in b {
        assert Intersects(a, b) == [a[0]] + rest;
        assert ([a[0]] + rest)[1..] == rest;
      } else {
        assert Intersects(a, b) == rest;
        if |rest| > 0 {
          assert IsSubsequence(rest, a[1..]);
        }
      }
    }
  }

  /** Duplicates are kept: an element of `b` occurs in the result exactly
      as often as in `a`, and nothing else occurs at all. */
  lemma {:induction false} IntersectsCounts<T>(a: seq<T>, b: seq<T>)
    ensures forall x :: multiset(Intersects(a, b))[x] == (if x in b then multiset(a)[x] else 0)
    decreases |a|
  {
    if |a| > 0 {
      IntersectsCounts(a[1..], b);
      assert a == [a[0]] + a[1..];
      assert multiset(a) == multiset([a[0]]) + multiset(a[1..]);
      var head: seq<T> := if a[0] in b then [a[0]] else [];
      assert multiset(Intersects(a, b)) == multiset(head) + multiset(Intersects(a[1..], b));
    }
  }

  /** JavaScript `ToBoolean` of an array object: every array is truthy,
      the empty one included. */
  function Truthy<T>(arr: seq<T>): bool {
    true
  }

  /** The guard `if (intersects(notifications, keys))` holds whatever the
      overlap, even when no key in common exists. */
  lemma GuardIgnoresOverlap<T>(notifications: seq<T>, keys: seq<T>)
    ensures Truthy(Intersects(notifications, keys))
    ensures (forall x :: x in notifications ==> x !in keys) ==> Intersects(notifications, keys) == []
  {
  }
}

=== FILE: registry.dfy ===
/**
  The process-wide notification registry of src/index.tsx: the `accepts`
  list of one-shot waiters, `subscribe`, which appends a waiter, and
  `notify`, which resolves every current waiter with the announced keys
  and then empties the list.

  A waiter is the `accept` function of one pending promise. It is
  identified here by its registration number; resolving it is recorded in
  `delivered`, the value that promise settled with. A JavaScript promise
  settles once: resolving an already-settled one is ignored, and so is a
  second delivery here.
*/
module Registry {

  type WaiterId = nat

  /** `pending` is the `accepts` array, in push order. */
  datatype Hub = Hub(pending: seq<WaiterId>, delivered: map<WaiterId, seq<string>>, nextId: WaiterId)

  const Empty: Hub := Hub([], map[], 0)

  /** Representation invariant: pending waiters are distinct, issued and
      not yet resolved; every resolved waiter carries a non-empty key list. */
  predicate Valid(h: Hub) {
    && (forall i :: 0 <= i < |h.pending| ==> h.pending[i] < h.nextId && h.pending[i] !in h.delivered)
    && (forall i, j :: 0 <= i < j < |h.pending| ==> h.pending[i] != h.pending[j])
    && (forall w :: w in h.delivered ==> w < h.nextId && |h.delivered[w]| > 0)
  }

  lemma EmptyIsValid()
    ensures Valid(Empty)
  {
  }

  /** `subscribe()`: a new pending promise whose resolver is pushed onto `accepts`. */
  function Subscribe(h: Hub): (r: (Hub, WaiterId))
    ensures r.0.pending == h.pending + [r.1]
    ensures r.0.delivered == h.delivered
    ensures r.0.nextId > r.1 && r.0.nextId > h.nextId
    ensures Valid(h) ==> r.1 !in h.pending && r.1 !in h.delivered && Valid(r.0)
  {
    (Hub(h.pending + [h.nextId], h.delivered, h.nextId + 1), h.nextId)
  }

  /** `notify(...keys)`: with no keys nothing happens; otherwise every
      waiter in `accepts` is resolved with the same `keys` and the list is
      emptied. */
  function Notify(h: Hub, keys: seq<string>): (r: Hub)
    ensures |keys| == 0 ==> r == h
    ensures |keys| > 0 ==> r.pending == [] && r.nextId == h.nextId
    ensures |keys| > 0 ==> forall w :: w in h.pending && w !in h.delivered ==> w in r.delivered && r.delivered[w] == keys
    ensures Valid(h) && |keys| > 0 ==> forall w :: w in h.pending ==> w in r.delivered && r.delivered[w] == keys
    ensures forall w :: w in h.delivered ==> w in r.delivered && r.delivered[w] == h.delivered[w]
    ensures forall w :: w in r.delivered ==> w in h.delivered || w in h.pending
    ensures Valid(h) ==> Valid(r)
  {
    if |keys| == 0 then h
    else
      var resolved := map w | w in h.pending && w !in h.delivered :: keys;
      Hub([], h.delivered + resolved, h.nextId)
  }

  /** The two registry operations, as a caller sees them. */
  datatype HubOp = Register | Announce(keys: seq<string>)

  function Apply(h: Hub, op: HubOp): Hub {
    match op
    case Register => Subscribe(h).0
    case Announce(keys) => Notify(h, keys)
  }

  function RunOps(h: Hub, ops: seq<HubOp>): Hub
    decreases |ops|
  {
    if |ops| == 0 then h else RunOps(Apply(h, ops[0]), ops[1..])
  }

  /** The key lists announced by `ops`. */
  function Announced(ops: seq<HubOp>): (ks: set<seq<string>>)
    ensures forall i :: 0 <= i < |ops| && ops[i].Announce? ==> ops[i].keys in ks
    decreases |ops|
  {
    if |ops| == 0 then {}
    else (if ops[0].Announce? then {ops[0].keys} else {}) + Announced(ops[1..])
  }

  /** A waiter is resolved at most once: once it has a value, no later
      registration or announcement changes it. */
  lemma {:induction false} DeliveryIsFinal(h: Hub, ops: seq<HubOp>, w: WaiterId)
    requires w in h.delivered
    ensures w in RunOps(h, ops).delivered && RunOps(h, ops).delivered[w] == h.delivered[w]
    decreases |ops|
  {
    if |ops| > 0 {
      DeliveryIsFinal(Apply(h, ops[0]), ops[1..], w);
    }
  }

  /** Every sequence of operations keeps the registry valid. */
  lemma {:induction false} RunPreservesValid(h: Hub, ops: seq<HubOp>)
    requires Valid(h)
    ensures Valid(RunOps(h, ops))
    decreases |ops|
  {
    if |ops| > 0 {
      RunPreservesValid(Apply(h, ops[0]), ops[1..]);
    }
  }

  /** A waiter that was not resolved can only ever be resolved with keys
      announced later: a waiter registered after `notify` has returned
      never sees that announcement. */
  lemma {:induction false} OnlyLaterAnnouncementsReach(h: Hub, ops: seq<HubOp>, w: WaiterId)
    requires w !in h.delivered
    ensures w in RunOps(h, ops).delivered ==> RunOps(h, ops).delivered[w] in Announced(ops)
    decreases |ops|
  {
    if |ops| > 0 {
      var h1 := Apply(h, ops[0]);
      if w in h1.delivered {
        assert ops[0].Announce? && h1.delivered[w] == ops[0].keys;
        DeliveryIsFinal(h1, ops[1..], w);
      } else {
        OnlyLaterAnnouncementsReach(h1, ops[1..], w);
      }
    }
  }

  /** The late-registration case spelled out: register after `notify(keys)`,
      and the new waiter is unresolved and only future keys can reach it. */
  lemma LateWaiterMissesAnnouncement(h: Hub, keys: seq<string>, ops: seq<HubOp>)
    requires Valid(h)
    ensures var r := Subscribe(Notify(h, keys));
            && r.1 !in r.0.delivered
            && (r.1 in RunOps(r.0, ops).delivered ==> RunOps(r.0, ops).delivered[r.1] in Announced(ops))
  {
    var r := Subscribe(Notify(h, keys));
    OnlyLaterAnnouncementsReach(r.0, ops, r.1);
  }
}

=== FILE: scenario.dfy ===
/**
  The concrete run of src/index.test.tsx: one component subscribed to
  ["cats"], whose getter resolves with one, then two, then three cats.
  Each step is checked against the state it must produce.
*/
module Scenario {

  import opened Wrappers
  import Registry
  import opened AbortSignal
  import opened Listen
  import opened World

  type Cats = seq<string>

  const Start: World<Cats, string> := World(Registry.Empty, [])

  const Mounted: Sub<Cats, string> := Sub(["cats"], true, Fresh, Fresh, false, Waiting(0), None, None, 0)
  const OneCat: Sub<Cats, string> := Mounted.(initPending := false, data := Some(["Bang!"]))

  /** JavaScript truthiness of a string error value. */
  function StringTruthy(e: string): bool {
    |e| > 0
  }

  lemma MountStep()
    ensures WStep(Start, Mount(["cats"])) == World(Registry.Hub([0], map[], 1), [Mounted])
  {
  }

  lemma InitStep()
    ensures WStep(World(Registry.Hub([0], map[], 1), [Mounted]), Init(0, Resolved(["Bang!"])))
         == World(Registry.Hub([0], map[], 1), [OneCat])
  {
  }

  lemma AnnounceStep(keys: seq<string>)
    requires |keys| > 0
    ensures WStep(World(Registry.Hub([0], map[], 1), [OneCat]), Announce(keys))
         == World(Registry.Hub([], map[0 := keys], 1), [OneCat])
  {
    var r := Registry.Notify(Registry.Hub([0], map[], 1), keys);
    assert r.delivered == map[0 := keys];
  }

  lemma RaceStep(keys: seq<string>)
    requires |keys| > 0
    ensures WStep(World(Registry.Hub([], map[0 := keys], 1), [OneCat]), Race(0, WaiterWon))
         == World(Registry.Hub([], map[0 := keys], 1), [OneCat.(loop := Fetching, refreshes := 1)])
  {
    WakeStartsRefresh(Registry.Hub([], map[0 := keys], 1), OneCat, keys);
  }

  lemma RefreshStep(keys: seq<string>, cats: Cats)
    ensures WStep(World(Registry.Hub([], map[0 := keys], 1), [OneCat.(loop := Fetching, refreshes := 1)]), Refresh(0, Resolved(cats)))
         == World(Registry.Hub([1], map[0 := keys], 2), [OneCat.(loop := Waiting(1), refreshes := 1, data := Some(cats))])
  {
  }

  /** An announcement made while the getter call is in flight finds no
      waiter of the subscription: it leaves the world as it was. */
  lemma AnnounceWhileFetchingStep(keys: seq<string>, more: seq<string>)
    ensures WStep(World(Registry.Hub([], map[0 := keys], 1), [OneCat.(loop := Fetching, refreshes := 1)]), Announce(more))
         == World(Registry.Hub([], map[0 := keys], 1), [OneCat.(loop := Fetching, refreshes := 1)])
  {
    var h := Registry.Hub([], map[0 := keys], 1);
    assert Registry.Notify(h, more).delivered == h.delivered;
  }

  /** The world after `notify("cats")` has woken the loop: the getter
      call is in flight and no waiter of the subscription is registered. */
  const Refetching: World<Cats, string> :=
    World(Registry.Hub([], map[0 := ["cats"]], 1), [OneCat.(loop := Fetching, refreshes := 1)])

  lemma RefetchingIsReached()
    ensures var w1 := WStep(Start, Mount(["cats"]));
            var w2 := WStep(w1, Init(0, Resolved(["Bang!"])));
            var w3 := WStep(w2, Announce(["cats"]));
            WStep(w3, Race(0, WaiterWon)) == Refetching
  {
    MountStep();
    InitStep();
    AnnounceStep(["cats"]);
    RaceStep(["cats"]);
  }

  /** A second `notify("cats")` made during the refresh it caused is lost:
      no refresh follows it, and the waiter registered afterwards stays
      unresolved because nothing queued the announcement. */
  lemma AnnouncementDuringRefreshIsLost()
    ensures var w5 := WStep(Refetching, Announce(["cats"]));
            var w6 := WStep(w5, Refresh(0, Resolved(["Bang!", "Crash!"])));
            && w5 == Refetching
            && w6.subs[0].loop == Waiting(1)
            && 1 !in w6.hub.delivered
            && w6.subs[0].refreshes == 1
  {
    AnnounceWhileFetchingStep(["cats"], ["cats"]);
    RefreshStep(["cats"], ["Bang!", "Crash!"]);
  }

  /** "Loading" before the first commit, one cat after the initial fetch,
      two after `notify("cats")`, and a new waiter registered afterwards. */
  lemma CatsScenario()
    ensures var w1 := WStep(Start, Mount(["cats"]));
            var w2 := WStep(w1, Init(0, Resolved(["Bang!"])));
            var w3 := WStep(w2, Announce(["cats"]));
            var w4 := WStep(w3, Race(0, WaiterWon));
            var w5 := WStep(w4, Refresh(0, Resolved(["Bang!", "Crash!"])));
            && Observe(w1.subs[0], StringTruthy) == Returns(None)
            && Observe(w2.subs[0], StringTruthy) == Returns(Some(["Bang!"]))
            && Observe(w5.subs[0], StringTruthy) == Returns(Some(["Bang!", "Crash!"]))
            && w5.subs[0].loop == Waiting(1) && w5.hub.pending == [1]
  {
    MountStep();
    InitStep();
    AnnounceStep(["cats"]);
    RaceStep(["cats"]);
    RefreshStep(["cats"], ["Bang!", "Crash!"]);
  }

  /** `notify("dogs")` reaches the ["cats"] subscription too and, as the
      code is written, starts a getter call: with the test's getter the
      component then shows a new list although no tracked key changed. */
  lemma DogsAnnouncementRefetches()
    ensures var w1 := WStep(Start, Mount(["cats"]));
            var w2 := WStep(w1, Init(0, Resolved(["Bang!"])));
            var w3 := WStep(w2, Announce(["dogs"]));
            var w4 := WStep(w3, Race(0, WaiterWon));
            var w5 := WStep(w4, Refresh(0, Resolved(["Bang!", "Crash!"])));
            && w3 == World(Registry.Hub([], map[0 := ["dogs"]], 1), [OneCat])
            && w4.subs[0] == OneCat.(loop := Fetching, refreshes := 1)
            && w5.subs[0].data == Some(["Bang!", "Crash!"])
            && Overlap.Intersects(["dogs"], OneCat.keys) == []
  {
    var w1 := WStep(Start, Mount(["cats"]));
    MountStep();
    assert w1 == World(Registry.Hub([0], map[], 1), [Mounted]);
    var w2 := WStep(w1, Init(0, Resolved(["Bang!"])));
    InitStep();
    assert w2 == World(Registry.Hub([0], map[], 1), [OneCat]);
    var w3 := WStep(w2, Announce(["dogs"]));
    AnnounceStep(["dogs"]);
    assert w3 == World(Registry.Hub([], map[0 := ["dogs"]], 1), [OneCat]);
    var w4 := WStep(w3, Race(0, WaiterWon));
    RaceStep(["dogs"]);
    RefreshStep(["dogs"], ["Bang!", "Crash!"]);
    DogsMissCats();
  }

  lemma DogsMissCats()
    ensures Overlap.Intersects(["dogs"], ["cats"]) == []
  {
    assert "dogs"[0] != "cats"[0];
    assert "dogs" !in ["cats"];
    assert ["dogs"][1..] == [];
  }

  /** A non-abort rejection of the first getter call surfaces as a thrown
      error, never as data. */
  lemma InitialFailureThrows(err: string)
    requires |err| > 0
    ensures var w1 := WStep(Start, Mount(["cats"]));
            var w2 := WStep(w1, Init(0, Rejected(Other(err))));
            Observe(w2.subs[0], StringTruthy) == Throws(err)
  {
    MountStep();
  }
}

=== FILE: world.dfy ===
/**
  The registry shared by every mounted `useListen` subscription: announcements
  go through `notify`, and each subscription's continuations run in any order
  the events choose. The race of lines 89-92 settles with whichever promise
  has a value: the subscription's waiter once it was resolved, or
  `unsubscribed` once `done` is set.
*/
module World {

  import opened Wrappers
  import Registry
  import opened Listen

  datatype Winner = WaiterWon | UnsubscribedWon

  datatype WorldEvent<T, E> =
    | Announce(keys: seq<string>)
    | Mount(keys: seq<string>)
    | Resubscribe(sub: nat, keys: seq<string>)
    | Init(sub: nat, outcome: Outcome<T, E>)
    | Race(sub: nat, winner: Winner)
    | Refresh(sub: nat, outcome: Outcome<T, E>)
    | Unmount(sub: nat)

  datatype World<T, E> = World(hub: Registry.Hub, subs: seq<Sub<T, E>>)

  /** A waiting subscription's waiter was issued by the hub and is either
      still registered or already resolved: it is never lost. */
  predicate WaiterLive<T, E>(h: Registry.Hub, s: Sub<T, E>) {
    s.loop.Waiting? ==> s.loop.waiter < h.nextId && (s.loop.waiter in h.pending || s.loop.waiter in h.delivered)
  }

  predicate WInv<T, E>(w: World<T, E>) {
    && Registry.Valid(w.hub)
    && (forall i :: 0 <= i < |w.subs| ==> Inv(w.subs[i]) && WaiterLive(w.hub, w.subs[i]))
    && (forall i, j :: 0 <= i < j < |w.subs| && w.subs[i].loop.Waiting? && w.subs[j].loop.Waiting?
          ==> w.subs[i].loop.waiter != w.subs[j].loop.waiter)
  }

  /** Runs one continuation of subscription `i`. */
  function Deliver<T, E>(w: World<T, E>, i: nat, ev: Event<T, E>): World<T, E> {
    if i < |w.subs| then
      var r := Step(w.hub, w.subs[i], ev);
      World(r.0, w.subs[i := r.1])
    else w
  }

  function WStep<T, E>(w: World<T, E>, e: WorldEvent<T, E>): World<T, E> {
    match e
    case Announce(keys) => w.(hub := Registry.Notify(w.hub, keys))
    case Mount(keys) =>
      var r := Listen.Mount<T, E>(w.hub, keys);
      World(r.0, w.subs + [r.1])
    case Resubscribe(i, keys) =>
      // React re-runs the effects of a mounted component only
      if i < |w.subs| && !w.subs[i].done then
        var r := Listen.Resubscribe(w.hub, w.subs[i], keys);
        World(r.0, w.subs[i := r.1])
      else w
    case Init(i, o) => Deliver(w, i, InitSettled(o))
    case Race(i, WaiterWon) =>
      if i < |w.subs| && w.subs[i].loop.Waiting? && w.subs[i].loop.waiter in w.hub.delivered
      then Deliver(w, i, Woken(Some(w.hub.delivered[w.subs[i].loop.waiter])))
      else w
    case Race(i, UnsubscribedWon) =>
      if i < |w.subs| && w.subs[i].done then Deliver(w, i, Woken(None)) else w
    case Refresh(i, o) => Deliver(w, i, RefreshSettled(o))
    case Unmount(i) => Deliver(w, i, Listen.Unmount)
  }

  function WRun<T, E>(w: World<T, E>, es: seq<WorldEvent<T, E>>): World<T, E>
    decreases |es|
  {
    if |es| == 0 then w else WRun(WStep(w, es[0]), es[1..])
  }

  lemma EmptyWorldIsValid<T, E>(w: World<T, E>)
    requires w.hub == Registry.Empty && w.subs == []
    ensures WInv(w)
  {
  }

  lemma DeliverPreservesWInv<T, E>(w: World<T, E>, i: nat, ev: Event<T, E>)
    requires WInv(w)
    ensures WInv(Deliver(w, i, ev))
  {
    if i < |w.subs| {
      var r := Step(w.hub, w.subs[i], ev);
      var w' := World(r.0, w.subs[i := r.1]);
      forall k | 0 <= k < |w'.subs|
        ensures Inv(w'.subs[k]) && WaiterLive(w'.hub, w'.subs[k])
      {
        if k != i {
          assert WaiterLive(w.hub, w.subs[k]);
        }
      }
      forall k, j | 0 <= k < j < |w'.subs| && w'.subs[k].loop.Waiting? && w'.subs[j].loop.Waiting?
        ensures w'.subs[k].loop.waiter != w'.subs[j].loop.waiter
      {
        if k != i && j != i {
          assert w'.subs[k] == w.subs[k] && w'.subs[j] == w.subs[j];
        } else if r.0 != w.hub {
          assert WaiterLive(w.hub, w.subs[if k == i then j else k]);
        }
      }
    }
  }

  /** The world invariant holds after every event. */
  lemma WStepPreservesWInv<T, E>(w: World<T, E>, e: WorldEvent<T, E>)
    requires WInv(w)
    ensures WInv(WStep(w, e))
  {
    match e
    case Announce(keys) =>
      var w' := WStep(w, e);
      forall k | 0 <= k < |w'.subs|
        ensures WaiterLive(w'.hub, w'.subs[k])
      {
        assert WaiterLive(w.hub, w.subs[k]);
      }
    case Mount(keys) =>
      var r := Listen.Mount<T, E>(w.hub, keys);
      var w' := World(r.0, w.subs + [r.1]);
      forall k | 0 <= k < |w'.subs|
        ensures Inv(w'.subs[k]) && WaiterLive(w'.hub, w'.subs[k])
      {
        if k < |w.subs| {
          assert w'.subs[k] == w.subs[k];
          assert WaiterLive(w.hub, w.subs[k]);
        }
      }
      forall k, j | 0 <= k < j < |w'.subs| && w'.subs[k].loop.Waiting? && w'.subs[j].loop.Waiting?
        ensures w'.subs[k].loop.waiter != w'.subs[j].loop.waiter
      {
        assert w'.subs[k] == w.subs[k];
        assert WaiterLive(w.hub, w.subs[k]);
      }
    case Resubscribe(i, keys) =>
      if i < |w.subs| && !w.subs[i].done {
        var r := Listen.Resubscribe(w.hub, w.subs[i], keys);
        var w' := World(r.0, w.subs[i := r.1]);
        forall k | 0 <= k < |w'.subs|
          ensures Inv(w'.subs[k]) && WaiterLive(w'.hub, w'.subs[k])
        {
          if k != i {
            assert WaiterLive(w.hub, w.subs[k]);
          }
        }
        forall k, j | 0 <= k < j < |w'.subs| && w'.subs[k].loop.Waiting? && w'.subs[j].loop.Waiting?
          ensures w'.subs[k].loop.waiter != w'.subs[j].loop.waiter
        {
          if k != i && j != i {
            assert w'.subs[k] == w.subs[k] && w'.subs[j] == w.subs[j];
          } else {
            assert WaiterLive(w.hub, w.subs[if k == i then j else k]);
          }
        }
      }
    case Init(i, o) => DeliverPreservesWInv(w, i, InitSettled(o));
    case Race(i, winner) =>
      if i < |w.subs| && w.subs[i].loop.Waiting? {
        if winner.WaiterWon? && w.subs[i].loop.waiter in w.hub.delivered {
          DeliverPreservesWInv(w, i, Woken(Some(w.hub.delivered[w.subs[i].loop.waiter])));
        } else if winner.UnsubscribedWon? && w.subs[i].done {
          DeliverPreservesWInv(w, i, Woken(None));
        }
      } else if winner.UnsubscribedWon? && i < |w.subs| && w.subs[i].done {
        DeliverPreservesWInv(w, i, Woken(None));
      }
    case Refresh(i, o) => DeliverPreservesWInv(w, i, RefreshSettled(o));
    case Unmount(i) => DeliverPreservesWInv(w, i, Listen.Unmount);
  }

  lemma {:induction false} WRunPreservesWInv<T, E>(w: World<T, E>, es: seq<WorldEvent<T, E>>)
    requires WInv(w)
    ensures WInv(WRun(w, es))
    decreases |es|
  {
    if |es| > 0 {
      WStepPreservesWInv(w, es[0]);
      WRunPreservesWInv(WStep(w, es[0]), es[1..]);
    }
  }

  /** Changing `keys` or `deps` keeps what the component renders, leaves
      every other subscription alone and starts one new initial call and
      one new waiter for the re-subscribed component. */
  lemma ResubscribeKeepsRender<T, E>(w: World<T, E>, i: nat, keys: seq<string>, truthy: E -> bool)
    requires WInv(w) && i < |w.subs| && !w.subs[i].done
    ensures var w' := WStep(w, Resubscribe(i, keys));
            && |w'.subs| == |w.subs|
            && Observe(w'.subs[i], truthy) == Observe(w.subs[i], truthy)
            && w'.subs[i].keys == keys && w'.subs[i].initPending && !w'.subs[i].done
            && w'.subs[i].loop.Waiting? && w'.hub.pending == w.hub.pending + [w'.subs[i].loop.waiter]
            && (forall k :: 0 <= k < |w.subs| && k != i ==> w'.subs[k] == w.subs[k])
  {
  }

  /** An unmounted component's effects never run again: re-subscribing it
      changes nothing. */
  lemma NoResubscribeAfterUnmount<T, E>(w: World<T, E>, i: nat, keys: seq<string>)
    requires i < |w.subs| && w.subs[i].done
    ensures WStep(w, Resubscribe(i, keys)) == w
  {
  }

  /** `notify()` with no keys changes nothing. */
  lemma EmptyAnnounceIsNoop<T, E>(w: World<T, E>)
    ensures WStep(w, Announce([])) == w
  {
  }

  /** `notify(k1..kn)` hands the same key list to every subscription whose
      waiter was registered, empties the registry, and touches no
      subscription state; every resolved waiter holds a non-empty list. */
  lemma AnnounceReachesEveryWaiter<T, E>(w: World<T, E>, keys: seq<string>)
    requires WInv(w) && |keys| > 0
    ensures var w' := WStep(w, Announce(keys));
            && w'.subs == w.subs && w'.hub.pending == []
            && (forall i :: 0 <= i < |w.subs| && w.subs[i].loop.Waiting? && w.subs[i].loop.waiter in w.hub.pending
                  ==> w.subs[i].loop.waiter in w'.hub.delivered && w'.hub.delivered[w.subs[i].loop.waiter] == keys)
            && (forall i :: 0 <= i < |w.subs| && w.subs[i].loop.Waiting?
                  ==> w.subs[i].loop.waiter in w'.hub.delivered && |w'.hub.delivered[w.subs[i].loop.waiter]| > 0)
  {
    var w' := WStep(w, Announce(keys));
    forall i | 0 <= i < |w.subs| && w.subs[i].loop.Waiting?
      ensures w.subs[i].loop.waiter in w'.hub.delivered && |w'.hub.delivered[w.subs[i].loop.waiter]| > 0
    {
      assert WaiterLive(w.hub, w.subs[i]);
    }
  }

  /** A subscription whose waiter was resolved, and which is still mounted,
      starts exactly one refresh call when the race settles, and no other
      subscription or the registry is touched. */
  lemma ResolvedWaiterStartsOneRefresh<T, E>(w: World<T, E>, i: nat)
    requires i < |w.subs| && w.subs[i].loop.Waiting? && !w.subs[i].done
    requires w.subs[i].loop.waiter in w.hub.delivered
    ensures var w' := WStep(w, Race(i, WaiterWon));
            && w'.hub == w.hub && |w'.subs| == |w.subs|
            && w'.subs[i].loop.Fetching? && w'.subs[i].refreshes == w.subs[i].refreshes + 1
            && (forall k :: 0 <= k < |w.subs| && k != i ==> w'.subs[k] == w.subs[k])
  {
    WakeStartsRefresh(w.hub, w.subs[i], w.hub.delivered[w.subs[i].loop.waiter]);
  }

  /** An announcement handed to a waiting, mounted subscription moves it to
      a refresh call and changes nothing else. */
  lemma WakeStartsRefresh<T, E>(h: Registry.Hub, s: Sub<T, E>, n: seq<string>)
    requires s.loop.Waiting? && !s.done
    ensures Step(h, s, Woken(Some(n))) == (h, s.(loop := Fetching, refreshes := s.refreshes + 1))
  {
    Overlap.GuardIgnoresOverlap(n, s.keys);
  }
}

=== FILE: wrappers.dfy ===
/** The optional value used for React state that starts out `undefined`. */
module Wrappers {

  datatype Option<+T> = None | Some(value: T)
}
